=== FILE: README.md ===
# FormModel — a Dafny model of the lazy form model of Styde Html

`Styde\Html\FormModel` is the base class a developer extends to declare a form:
its setup hooks fill a field collection and a button collection, and the
instance then renders the form through a theme, gathers the client-side
scripts and styles its fields need, and derives the server-side validation
rules from the same fields. This project models the logic under that façade:

- the lazy setup state machine (`runSetup`): the form is built once, for the
  current method string, and the hook is chosen by that string — `'post'` runs
  `creationSetup`, `'put'` runs `updateSetup`, anything else runs `setup`;
  every later call is a no-op;
- the overridable hooks (inherited `creationSetup`/`updateSetup` call the
  empty `setup`; a subclass may override any of them, an override of a mode
  hook may call `setup()` a fixed number of times before, after or between
  its own steps, hook code
  may change the method, the template, the form's `novalidate` attribute and
  the collections, and any of it may throw);
- the fluent configuration (`forCreation`, `forUpdate`, `template`) and
  `novalidate` (its default argument `true` is the caller passing `true`);
- the template precedence of `render`/`toHtml` under PHP truthiness;
- asset aggregation for `scripts`/`styles` (`array_merge` over the true fields,
  then `array_values(array_unique(...))`) and the tag fold of
  `renderScripts`/`renderStyles`;
- rule collection for `getValidationRules` (PHP ordered-array assignment);
- the resolution order of `__call` and the field lookup of `__get`.

The state is an immutable record `FormModel(httpMethod, customTemplate, form,
contents, buildCount, hookLog)`; every setup-triggering operation is a pure
function returning `Done(state, value)` or `Threw(state)`. The subclass's hooks
are a `Hooks` parameter: `setup` is a function on the part of the instance a hook
can change (`Scope`), and a mode hook is a sequence of steps, each a `setup()`
call or the subclass's own code.

Files: `wrappers.dfy` (Option), `php.dfy` (truthiness, `?:`, ordered arrays),
`unique.dfy` (`array_unique` as `Dedup`, and the loop that computes it),
`fields.dfy` (entries, `onlyFields`, asset and rule collection, tag fold),
`form_model.dfy` (the state machine and the public operations).

Two facts about the code the model keeps:

- The form is stored (src/FormModel.php:93) before the hook is invoked
  (:95-101). A hook that throws therefore leaves the form set, and because
  :89 returns as soon as a form exists, setup is never retried. `RunSetup`
  returns `Threw` with the form set and `SetupNeverRepeats` proves no second
  run happens.
- The modes are not an enumeration: the method is a string, compared with
  `'post'` (:95) and `'put'` (:97); every other string runs `setup`.

## Model

| member | source | states |
|---|---|---|
| FormModels.New | src/FormModel.php:39-58 | a new instance holds the collections it was given, is configured for `'post'`, has no custom template, no form, no build and no hook invocation, and is consistent |
| FormModels.RunSetup | src/FormModel.php:87-102 | a no-op once a form exists; otherwise exactly one form is built, for the method current at the call, and stays set even if the hook throws; for `'post'` the state afterwards is what the `creationSetup` body left and the log gains `creationSetup` followed by that body's own invocations, for `'put'` likewise with `updateSetup`, otherwise the state is what `setup` left and the log gains one `setup`, and setup throws exactly when that code throws; the first hook logged is `creationSetup` iff the method is `'post'`, `updateSetup` iff `'put'`, `setup` otherwise, and any later invocation in that run is `setup` |
| FormModels.Dispatch | src/FormModel.php:95-101 | for `'post'` the effect, the throw and the invocations after the first are those of the `creationSetup` body, for `'put'` those of the `updateSetup` body, otherwise the effect and throw are `setup`'s and `setup` is the only invocation; the hook logged first is `creationSetup` iff `'post'`, `updateSetup` iff `'put'`, `setup` iff neither |
| FormModels.CallSetup | src/FormModel.php:100 | invoking `setup()` leaves what `setup` leaves, throws iff it throws, and logs one `setup` |
| FormModels.CallModeHook | src/FormModel.php:129-142 | invoking a mode hook runs its body: the hook is logged first, then the body's own invocations, and the effect and the throw are the body's |
| FormModels.RunBody | src/FormModel.php:129-142 | only `setup` calls are logged while a mode hook's body runs: as many as the body makes when nothing throws, never more (what each step does is fixed by the three lemmas below) |
| FormModels.RunBodyCallsSetup | src/FormModel.php:129-132 | a body that calls `setup()` leaves what `setup` leaves, logs one `setup`, and throws iff `setup` throws |
| FormModels.RunBodyOwn | src/FormModel.php:129-142 | a step of the subclass's own code leaves what that code leaves, logs nothing, and throws iff it throws |
| FormModels.RunBodyAppend | src/FormModel.php:129-142 | a body runs its steps in order: running `a + b` runs `a`, stops there if `a` threw, and otherwise runs `b` on what `a` left, its invocations following `a`'s |
| FormModels.RunBodyUsesOnlySetup | src/FormModel.php:129-142 | a mode hook's body reaches no hook but `setup`: with the same `setup`, a body runs identically whatever the other hooks are |
| FormModels.RunBodyReturns | src/FormModel.php:129-142 | a body whose own steps and `setup` all return, returns |
| FormModels.SetupRunsOnlySelectedHook | src/FormModel.php:95-101 | only the selected hook's code runs: for `'post'` replacing `updateSetup` changes nothing, for `'put'` replacing `creationSetup` changes nothing, and for other methods replacing both changes nothing |
| FormModels.SetupReturnsWhenHooksReturn | src/FormModel.php:87-142 | setup throws only if hook code throws: when `setup` and the own steps of both mode hooks return, setup returns for every method |
| FormModels.SetupNeverRepeats | src/FormModel.php:87-93 | after one run of setup, whether it returned or threw, a second run changes nothing and builds no second form |
| FormModels.RunSetupConsistent | src/FormModel.php:87-102 | from a consistent state (form unset iff nothing built iff no hook run) setup leaves exactly one form built |
| FormModels.DefaultHooksChain | src/FormModel.php:119-142 | with the inherited hooks nothing throws, only the form, build count and log change, the form is built for the method with no `novalidate` attribute, and the log gains `creationSetup, setup` for `'post'`, `updateSetup, setup` for `'put'`, `setup` otherwise: exactly one `setup` per mode |
| FormModels.ForCreation | src/FormModel.php:65-69 | selects `'post'` and changes no other part of the state; no form is built |
| FormModels.ForUpdate | src/FormModel.php:76-80 | selects `'put'` and changes no other part of the state; no form is built |
| FormModels.Template | src/FormModel.php:150-155 | stores the custom template and changes no other part of the state |
| FormModels.ModeSelectsHook | src/FormModel.php:65-101 | before setup, `forCreation` leads setup to `creationSetup` and a form built for `'post'`, `forUpdate` to `updateSetup` and a form built for `'put'`; after setup neither has any retroactive effect |
| FormModels.Novalidate | src/FormModel.php:178-185 | runs setup; if setup throws the state is setup's; otherwise the state is setup's with only the form's attribute set to the given value |
| FormModels.NovalidateAfterSetup | src/FormModel.php:178-185 | on an instance whose form is built, `novalidate` only changes the form's attribute |
| FormModels.ChooseTemplate | src/FormModel.php:205 | the template is the argument if truthy, else the stored template if truthy, else `'@form'`; the result is never a falsy string |
| FormModels.Render | src/FormModel.php:201-210 | runs setup first and returns iff setup returns, then hands the theme the template chosen from the argument and the stored template as setup left it, the built form and the current fields and buttons |
| FormModels.ToHtml | src/FormModel.php:192-195 | runs setup and returns iff setup returns, rendering the stored template when truthy, else `'@form'` |
| FormModels.RenderPrecedence | src/FormModel.php:150-155 | on a built form, `template(t)` then `render()` renders `t`, a truthy argument wins, a falsy argument acts like none, and with nothing stored `'@form'` is rendered |
| FormModels.RenderPrecedenceBeforeSetup | src/FormModel.php:150-155 | with the inherited hooks, on an instance that may not have run setup yet, `template(t)` then `render()` renders a truthy `t`, a truthy argument wins, a falsy argument acts like none, and with no truthy stored template `'@form'` is rendered |
| FormModels.SetupHookOverridesTemplate | src/FormModel.php:203-205 | the template is read after setup: a `setup()` that stores `'@custom'` wins over a template stored before the first render |
| FormModels.RenderStable | src/FormModel.php:201-210 | rendering twice with the same argument returns the same theme call and leaves the state unchanged |
| FormModels.Assets | src/FormModel.php:212-223 | runs setup, then returns a duplicate-free list holding exactly the URLs some true field requires, in order of first occurrence across the fields |
| FormModels.ScriptURLs | src/FormModel.php:212-223 | `scripts()` runs setup and returns iff setup returns, with a duplicate-free list holding exactly the script URLs some true field requires, in order of first occurrence across the fields |
| FormModels.StyleURLs | src/FormModel.php:232-243 | `styles()` runs setup and returns iff setup returns, with a duplicate-free list holding exactly the style URLs some true field requires, in order of first occurrence across the fields |
| FormModels.RenderAssetTags | src/FormModel.php:225-230 | `renderScripts()` runs setup, returns iff setup returns, and yields one tag per collected URL, concatenated in list order |
| FormModels.RenderScriptsRender | src/FormModel.php:201-223 | `render()`, `scripts()`, `render()` in a row: the second render makes the same theme call as the first and nothing is set up again |
| FormModels.AssetsStable | src/FormModel.php:212-223 | a second `scripts()`/`styles()` call returns the same list and leaves the state unchanged |
| FormModels.GetValidationRules | src/FormModel.php:268-281 | runs setup, then returns a rule array whose keys are distinct and are exactly the names of included true fields; with unique names it is those fields mapped to their rules in collection order |
| FormModels.RulesStable | src/FormModel.php:268-281 | once `getValidationRules()` has returned, a second call returns the same rules and leaves the state unchanged |
| FormModels.Forward | src/FormModel.php:292-302 | a forwarded call goes to the form iff the form is built and has the method, else to the buttons iff they have it, else to the fields |
| FormModels.ForwardAfterSetup | src/FormModel.php:292-302 | running setup sends names the form class has to the form and leaves every other name's target unchanged |
| FormModels.FieldNamed | src/FormModel.php:311-314 | the lookup finds an entry iff the collection has that name, and the entry is the one stored under it |
| FormModels.StepConsistent | src/FormModel.php:87-102 | every call listed in `Call` keeps an instance consistent and, once the form is built, runs no hook |
| FormModels.SessionBuildsAtMostOnce | src/FormModel.php:87-102 | over any sequence of calls listed in `Call` at most one form is built, and once built its method and the hook log never change |
| FormModels.DefaultSessionRunsSetupOnce | src/FormModel.php:119-142 | with the inherited hooks, any sequence of calls listed in `Call` invokes `setup` exactly as many times as forms were built: once or never |
| Fields.OnlyFields | src/FormModel.php:218 | the entries kept are exactly the true fields of the collection (their order is fixed by `Fields.OnlyFieldsAppend`) |
| Fields.OnlyFieldsAppend | src/FormModel.php:218 | keeping the true fields distributes over concatenation, so they stay in collection order with their multiplicity |
| Fields.MergedAssetsSkipsNonFields | src/FormModel.php:218-220 | merging over the true fields gives the same list, in the same order, as merging over the whole collection |
| Fields.MergedAssetsAppend | src/FormModel.php:218-220 | merging the URL lists distributes over concatenation of the entries |
| Fields.MergedAssetsMembers | src/FormModel.php:218-220 | a URL is in the merged list iff some entry requires it |
| Fields.CollectAssetsSpec | src/FormModel.php:216-222 | the collected list has no duplicates, holds exactly the URLs some true field requires, and lists them in first-occurrence order |
| Fields.CollectAssetsCharacterized | src/FormModel.php:216-222 | any duplicate-free list of the merged URLs in first-occurrence order is the collected list |
| Fields.ValidationRules | src/FormModel.php:272-280 | the rule array has distinct keys, and a name is a key iff some entry of that name is an included true field |
| Fields.ValidationRulesInOrder | src/FormModel.php:274-278 | with unique names the rule array is the included true fields, each with its own rules, in collection order; groups and excluded fields contribute nothing |
| Fields.ReduceTagsAppends | src/FormModel.php:227-229 | the `array_reduce` fold appends the tags of all URLs, in order, to its seed |
| Fields.RenderAssets | src/FormModel.php:245-250 | the rendered markup is the concatenation of one tag per URL in list order |
| Php.Assign | src/FormModel.php:276 | assigning to an existing key keeps the key order and position; a new key is appended; other entries are untouched |
| Php.AssignKeepsKeysDistinct | src/FormModel.php:276 | assignment keeps keys distinct and adds exactly the assigned key |
| Php.Lookup | src/FormModel.php:313 | a value is found iff the key is present, and it is a value stored under that key |
| Unique.DedupSameElements | src/FormModel.php:222 | `array_unique` keeps exactly the values of its input |
| Unique.DedupNoDuplicates | src/FormModel.php:222 | `array_unique` leaves no value twice |
| Unique.DedupFirstOccurrenceOrder | src/FormModel.php:222 | `array_unique` keeps values in the order of their first occurrence |
| Unique.DedupCharacterized | src/FormModel.php:222 | the duplicate-free, same-values, first-occurrence-ordered list is unique and is the result of `array_unique` |
| Unique.DedupIdempotent | src/FormModel.php:222 | applying `array_unique` twice is the same as once |
| Unique.ArrayUnique | src/FormModel.php:222 | the single pass with a set of seen values computes the same list as the definition: duplicate-free, with exactly the input's values |

## Left out

- Theme rendering (`$this->theme->render`): `Render` returns the theme call (template, form, contents) instead of markup.
- `Html::script` / `Html::style`: the tag function is a parameter of `RenderAssets` and `RenderAssetTags`.
- FormModels.RunSetup: hook code may change the method, the template, the form's `novalidate` attribute and the collections; other form attributes, replacing `$this->form`, and a `setup()` override that calls a mode hook are not modelled, so the clauses on the log and on the built form's method assume none of these.
- FormModels.CallModeHook: a mode hook's body may call `setup()` anywhere and any number of times, but a call from one mode hook to the other (which could recurse) is not modelled; the clause that every later log entry is `setup` depends on this. A body's `setup()` calls are a fixed sequence of steps, so their number cannot depend on the state; a `setup()` call made only under a condition has to be folded into an own step, where it is not logged, and the count clauses of `RunBody` and `CallModeHook` then do not see it.
- `FormBuilder::make`: the built form is modelled as the method it was made for plus the `novalidate` attribute; a builder that throws is not modelled (the form would then stay unset).
- `model()` / `setCurrentModel`: binding a persisted model is external to this class and changes nothing this model observes.
- `validate()`: it reads the ambient request and runs the framework validator; only the rule array it passes (`GetValidationRules`) is modelled.
- `Htmlable` and `HtmlString` wrapping: framework glue with no logic.
- FormModels.Forward: method-name sets stand in for `method_exists`; the arguments and return value of the forwarded call, and the field collection's own unknown-method error, are not modelled; in `Step` a forwarded call leaves the state as it is, although a forwarded call such as adding a field changes the collections. Before setup the form is treated as having no methods, which is what `method_exists(null, …)` reports on PHP 7; on PHP 8 that call throws a `TypeError` (its first argument must be an object or a string), which is not modelled.
- FormModels.StepConsistent: direct calls of the public hooks `setup()`, `creationSetup()` and `updateSetup()` (src/FormModel.php:119-142) are not in `Call`; such a call runs hook code with no form built, so an instance after it need not be `Consistent`.
- FormModels.SessionBuildsAtMostOnce: direct calls of the public hooks are not in `Call`; such a call after setup adds to the hook log, so the log stays fixed only over the calls listed in `Call`.
- FormModels.DefaultSessionRunsSetupOnce: direct calls of the public hooks are not in `Call`; a direct `setup()` call invokes `setup` without a build, so the count of `setup` invocations equals the build count only over the calls listed in `Call`.
- `toHtml()`, `renderScripts()`, `renderStyles()`, `validate()` and `model()` are not in `Call`: the first four change the state exactly as `render()`, `scripts()`, `styles()` and `getValidationRules()` do, and `model()` changes nothing this model observes.
- FormModels.FieldNamed: the field collection's error for an unknown name is modelled as `None`.
- `method()` overridden by a subclass, and a non-string `$method` (PHP's loose `==` would then apply): the method is a string and `==` is string equality.
- Field script and style lists are lists (integer keys); `array_merge` on string-keyed lists would overwrite instead of append, which is not modelled.
- `onlyFields()`/`all()` internals, including fields nested in groups: the collection is a given sequence of named entries and `onlyFields` keeps the true fields.

=== FILE: fields.dfy ===
/** The entries of a field collection and the two scans the form model runs over
    them: asset aggregation (`scripts`, `styles`) and rule collection
    (`getValidationRules`). */
module Fields {
  import opened Php
  import Unique

  /** An entry of a field collection: a true field, or any other node such as a
      group or a layout-only element. */
  datatype Entry =
    | Field(included: bool, rules: seq<string>, scripts: seq<string>, styles: seq<string>)
    | Other

  /** A field collection as `all()` returns it: entries keyed by name, in insertion order. */
  type Collection = OrderedArray<Entry>

  /** The two kinds of client-side asset a field may require. */
  datatype AssetKind = Scripts | Styles

  /** The URLs of one kind that an entry requires; entries that are not fields require none. */
  function AssetsOf(e: Entry, kind: AssetKind): seq<string> {
    match e
    case Other => []
    case Field(_, _, scripts, styles) => if kind == Scripts then scripts else styles
  }

  /** `onlyFields()`: the entries that are true fields, in collection order. */
  function OnlyFields(c: Collection): (r: Collection)
    ensures forall p :: p in r <==> p in c && p.1.Field?
    ensures |r| <= |c|
  {
    if |c| == 0 then []
    else (if c[0].1.Field? then [c[0]] else []) + OnlyFields(c[1..])
  }

  /** Filtering distributes over concatenation, so the kept entries stay in
      collection order, each as often as it occurs. */
  lemma {:induction false} OnlyFieldsAppend(a: Collection, b: Collection)
    ensures OnlyFields(a + b) == OnlyFields(a) + OnlyFields(b)
  {
    if |a| > 0 {
      assert (a + b)[1..] == a[1..] + b;
      OnlyFieldsAppend(a[1..], b);
    } else {
      assert a + b == b;
    }
  }

  /** The per-entry URL lists joined by repeated `array_merge`, in collection order. */
  function MergedAssets(c: Collection, kind: AssetKind): seq<string>
  {
    if |c| == 0 then [] else AssetsOf(c[0].1, kind) + MergedAssets(c[1..], kind)
  }

  /** The joined list holds exactly the URLs some entry requires. */
  lemma {:induction false} MergedAssetsMembers(c: Collection, kind: AssetKind, url: string)
    ensures url in MergedAssets(c, kind) <==> exists p :: p in c && url in AssetsOf(p.1, kind)
  {
    if |c| > 0 {
      MergedAssetsMembers(c[1..], kind, url);
      assert c == [c[0]] + c[1..];
      if url in AssetsOf(c[0].1, kind) {
        assert c[0] in c;
      }
    }
  }

  /** Entries that are not fields require no assets, so merging over `onlyFields()`
      gives the same list, in the same order, as merging over the whole collection. */
  lemma {:induction false} MergedAssetsSkipsNonFields(c: Collection, kind: AssetKind)
    ensures MergedAssets(OnlyFields(c), kind) == MergedAssets(c, kind)
  {
    if |c| > 0 {
      MergedAssetsSkipsNonFields(c[1..], kind);
      var head := if c[0].1.Field? then [c[0]] else [];
      MergedAssetsAppend(head, OnlyFields(c[1..]), kind);
      if c[0].1.Field? {
        assert [c[0]][1..] == [];
      }
    }
  }

  /** Merging distributes over concatenation. */
  lemma {:induction false} MergedAssetsAppend(a: Collection, b: Collection, kind: AssetKind)
    ensures MergedAssets(a + b, kind) == MergedAssets(a, kind) + MergedAssets(b, kind)
  {
    if |a| > 0 {
      assert (a + b)[1..] == a[1..] + b;
      MergedAssetsAppend(a[1..], b, kind);
    } else {
      assert a + b == b;
    }
  }

  /** The asset list of one kind for the whole collection, as `scripts()` and
      `styles()` compute it: merge the lists of the true fields, keep first occurrences. */
  function CollectAssets(c: Collection, kind: AssetKind): seq<string>
  {
    Unique.Dedup(MergedAssets(OnlyFields(c), kind))
  }

  /** A URL is collected iff some true field of the collection requires it. */
  predicate RequiredByAField(c: Collection, kind: AssetKind, url: string) {
    exists p :: p in c && p.1.Field? && url in AssetsOf(p.1, kind)
  }

  /** The collected assets hold no URL twice, hold exactly the URLs some true field
      requires, and list them in order of first occurrence across the fields. */
  lemma CollectAssetsSpec(c: Collection, kind: AssetKind)
    ensures Unique.NoDuplicates(CollectAssets(c, kind))
    ensures forall url :: url in CollectAssets(c, kind) <==> RequiredByAField(c, kind, url)
    ensures forall url :: url in CollectAssets(c, kind) ==> url in MergedAssets(OnlyFields(c), kind)
    ensures Unique.FirstOccurrenceOrder(MergedAssets(OnlyFields(c), kind), CollectAssets(c, kind))
  {
    var merged := MergedAssets(OnlyFields(c), kind);
    Unique.DedupNoDuplicates(merged);
    Unique.DedupSameElements(merged);
    Unique.DedupFirstOccurrenceOrder(merged);
    forall url
      ensures url in CollectAssets(c, kind) <==> RequiredByAField(c, kind, url)
    {
      MergedAssetsMembers(OnlyFields(c), kind, url);
    }
  }

  /** Any list with those three properties is the collected asset list. */
  lemma CollectAssetsCharacterized(c: Collection, kind: AssetKind, r: seq<string>)
    requires Unique.NoDuplicates(r)
    requires forall url :: url in r <==> url in MergedAssets(OnlyFields(c), kind)
    requires Unique.FirstOccurrenceOrder(MergedAssets(OnlyFields(c), kind), r)
    ensures r == CollectAssets(c, kind)
  {
    Unique.DedupCharacterized(MergedAssets(OnlyFields(c), kind), r);
  }

  /** An entry contributes validation rules iff it is a true field marked included. */
  predicate Included(e: Entry) {
    e.Field? && e.included
  }

  /** Some entry named `k` contributes rules. */
  predicate HasIncludedEntry(c: Collection, k: string) {
    exists i :: 0 <= i < |c| && c[i].0 == k && Included(c[i].1)
  }

  /** `getValidationRules()`: walk `all()` in order and assign `$rules[$name]` for each
      included true field. The result is a PHP array whose keys are exactly the names
      of the included fields. */
  function ValidationRules(c: Collection): (r: OrderedArray<seq<string>>)
    ensures DistinctKeys(r)
    ensures forall k :: k in Keys(r) <==> HasIncludedEntry(c, k)
  {
    if |c| == 0 then []
    else
      var init := c[..|c| - 1];
      var acc := ValidationRules(init);
      var (name, entry) := c[|c| - 1];
      forall k | HasIncludedEntry(init, k)
        ensures HasIncludedEntry(c, k)
      {
        var i :| 0 <= i < |init| && init[i].0 == k && Included(init[i].1);
        assert c[i] == init[i];
      }
      forall k | HasIncludedEntry(c, k) && k != name
        ensures HasIncludedEntry(init, k)
      {
        var i :| 0 <= i < |c| && c[i].0 == k && Included(c[i].1);
        assert c[i] == init[i];
      }
      if Included(entry) then
        AssignKeepsKeysDistinct(acc, name, entry.rules);
        Assign(acc, name, entry.rules)
      else
        forall k | HasIncludedEntry(c, k)
          ensures HasIncludedEntry(init, k)
        {
          var i :| 0 <= i < |c| && c[i].0 == k && Included(c[i].1);
          assert c[i] == init[i];
        }
        acc
  }

  /** Reference definition: the included true fields, each mapped to its rules, in
      collection order. */
  function IncludedRules(c: Collection): OrderedArray<seq<string>>
  {
    if |c| == 0 then []
    else (if Included(c[0].1) then [(c[0].0, c[0].1.rules)] else []) + IncludedRules(c[1..])
  }

  /** The reference rule list names only entries of the collection. */
  lemma {:induction false} IncludedRulesKeys(c: Collection, k: string)
    ensures k in Keys(IncludedRules(c)) ==> k in Keys(c)
  {
    if |c| > 0 && k in Keys(IncludedRules(c)) {
      if k != c[0].0 {
        var r := IncludedRules(c[1..]);
        assert IncludedRules(c) == (if Included(c[0].1) then [(c[0].0, c[0].1.rules)] else []) + r;
        assert k in Keys(r);
        IncludedRulesKeys(c[1..], k);
        assert Keys(c) == [c[0].0] + Keys(c[1..]);
      } else {
        assert c[0].0 == Keys(c)[0];
      }
    }
  }

  /** The reference rule list extends entry by entry at the end. */
  lemma {:induction false} IncludedRulesSnoc(c: Collection, p: (string, Entry))
    ensures IncludedRules(c + [p]) ==
      IncludedRules(c) + (if Included(p.1) then [(p.0, p.1.rules)] else [])
  {
    if |c| == 0 {
      assert [p][1..] == [];
    } else {
      var head := if Included(c[0].1) then [(c[0].0, c[0].1.rules)] else [];
      var tail := if Included(p.1) then [(p.0, p.1.rules)] else [];
      assert (c + [p])[0] == c[0];
      assert (c + [p])[1..] == c[1..] + [p];
      IncludedRulesSnoc(c[1..], p);
      assert IncludedRules(c + [p]) == head + (IncludedRules(c[1..]) + tail);
      assert head + (IncludedRules(c[1..]) + tail) == (head + IncludedRules(c[1..])) + tail;
    }
  }

  /** In a collection with unique names the last entry's name is not used before it. */
  lemma LastNameIsNew(c: Collection)
    requires DistinctKeys(c) && |c| > 0
    ensures c[|c| - 1].0 !in Keys(c[..|c| - 1])
  {
  }

  /** With unique names (which a PHP array guarantees), the collected rules are the
      included true fields mapped to their rules, in collection order; non-fields and
      excluded fields contribute nothing. */
  lemma {:induction false} ValidationRulesInOrder(c: Collection)
    requires DistinctKeys(c)
    ensures ValidationRules(c) == IncludedRules(c)
  {
    if |c| > 0 {
      var init := c[..|c| - 1];
      var last := c[|c| - 1];
      assert DistinctKeys(init);
      ValidationRulesInOrder(init);
      assert c == init + [last];
      IncludedRulesSnoc(init, last);
      IncludedRulesKeys(init, last.0);
      LastNameIsNew(c);
    }
  }

  /** `array_reduce($urls, fn ($result, $u) => $result . tag($u), '')`: a left fold
      that appends one tag per URL. */
  function ReduceTags(urls: seq<string>, tag: string -> string, acc: string): string
  {
    if |urls| == 0 then acc else ReduceTags(urls[1..], tag, acc + tag(urls[0]))
  }

  /** Reference definition: the tags of all URLs, concatenated in order. */
  function Tags(urls: seq<string>, tag: string -> string): string
  {
    if |urls| == 0 then "" else tag(urls[0]) + Tags(urls[1..], tag)
  }

  /** The left fold appends the in-order concatenation of the tags to its seed. */
  lemma {:induction false} ReduceTagsAppends(urls: seq<string>, tag: string -> string, acc: string)
    ensures ReduceTags(urls, tag, acc) == acc + Tags(urls, tag)
  {
    if |urls| > 0 {
      ReduceTagsAppends(urls[1..], tag, acc + tag(urls[0]));
    }
  }

  /** `renderScripts()`/`renderStyles()` given the asset list: one tag per URL, in
      list order, nothing before or after. */
  function RenderAssets(urls: seq<string>, tag: string -> string): (html: string)
    ensures html == Tags(urls, tag)
  {
    ReduceTagsAppends(urls, tag, "");
    ReduceTags(urls, tag, "")
  }
}

=== FILE: form_model.dfy ===
/** The form model: a lazily built form whose setup hook is chosen by the HTTP
    method, plus the façade operations that trigger setup and read the built state. */
module FormModels {
  import opened Wrappers
  import opened Php
  import opened Fields
  import Unique

  /** The form a form builder makes: the HTTP method it was made for, and the
      `novalidate` attribute once this model has set it. */
  datatype Form = Form(httpMethod: string, novalidate: Option<bool>)

  /** What the setup hooks populate: the field collection and the names of the buttons. */
  datatype Contents = Contents(fields: Collection, buttons: seq<string>)

  /** The three overridable setup hooks. */
  datatype Hook = Setup | CreationSetup | UpdateSetup

  /** The part of an instance a hook body can change: the configured method, the
      custom template, the built form's `novalidate` attribute, and the collections. */
  datatype Scope = Scope(
    httpMethod: string,
    customTemplate: NullableString,
    novalidate: Option<bool>,
    contents: Contents)

  /** What a piece of hook code leaves behind, and whether it threw. */
  datatype Effect = Effect(scope: Scope, threw: bool)

  /** One step of a `creationSetup` or `updateSetup` body: a call to `setup()`, or
      code of the subclass's own. */
  datatype Action = CallsSetup | Own(run: Scope -> Effect)

  /** The hook implementations of a form model class; a mode hook's body is a
      fixed sequence of steps, so it may call `setup()` before, after, or between
      its own code, a fixed number of times, or not at all. */
  datatype Hooks = Hooks(setup: Scope -> Effect, creationSetup: seq<Action>, updateSetup: seq<Action>)

  /** A hook body that changes nothing and does not throw. */
  function NoOp(s: Scope): Effect {
    Effect(s, false)
  }

  /** The inherited hooks: `setup` is empty, `creationSetup` and `updateSetup` call `setup`. */
  const DefaultHooks := Hooks(NoOp, [CallsSetup], [CallsSetup])

  /** The method a new form model is configured for. */
  const DefaultMethod := "post"

  /** The template rendered when neither `render` nor `template` names one. */
  const DefaultTemplate := "@form"

  /** The state of one form model instance. `buildCount` counts the forms the builder
      made for it; `hookLog` lists the hook invocations in order. */
  datatype FormModel = FormModel(
    httpMethod: string,
    customTemplate: NullableString,
    form: Option<Form>,
    contents: Contents,
    buildCount: nat,
    hookLog: seq<Hook>)

  /** The result of an operation that may run setup: the new state, and the value
      returned, unless a hook threw (the state then keeps what was done before). */
  datatype Outcome<T> = Done(model: FormModel, value: T) | Threw(model: FormModel)

  /** State every reachable instance is in: no form, no build and no hook
      invocation, or a form built exactly once and at least one hook invoked. */
  predicate Consistent(m: FormModel) {
    && m.buildCount <= 1
    && (m.form.None? <==> m.buildCount == 0)
    && (m.form.None? <==> m.hookLog == [])
  }

  /** A freshly constructed form model over the collections it was given. */
  function New(contents: Contents): (m: FormModel)
    ensures m.contents == contents
    ensures m.httpMethod == DefaultMethod && m.customTemplate.None?
    ensures m.form.None? && m.buildCount == 0 && m.hookLog == []
    ensures Consistent(m) && multiset(m.hookLog)[Setup] == m.buildCount
  {
    FormModel(DefaultMethod, None, None, contents, 0, [])
  }

  // ---------------------------------------------------------------- setup

  /** The invocations made by running hook code, and what it leaves behind. */
  datatype Trace = Trace(scope: Scope, log: seq<Hook>, threw: bool)

  /** The number of `setup()` calls a mode hook's body makes when nothing throws. */
  function SetupCalls(body: seq<Action>): nat
  {
    if |body| == 0 then 0 else (if body[0].CallsSetup? then 1 else 0) + SetupCalls(body[1..])
  }

  /** Invoke `setup()`. */
  function CallSetup(h: Hooks, s: Scope): (t: Trace)
    ensures t.log == [Setup]
    ensures t.scope == h.setup(s).scope && t.threw == h.setup(s).threw
  {
    var e := h.setup(s);
    Trace(e.scope, [Setup], e.threw)
  }

  /** Run the steps of a mode hook's body in order, stopping at the first that
      throws. Only the `setup()` calls are logged: every one the body makes if
      nothing throws, and never more. */
  function RunBody(h: Hooks, body: seq<Action>, s: Scope): (t: Trace)
    ensures forall i :: 0 <= i < |t.log| ==> t.log[i] == Setup
    ensures |t.log| <= SetupCalls(body)
    ensures !t.threw ==> |t.log| == SetupCalls(body)
    decreases |body|
  {
    if |body| == 0 then Trace(s, [], false)
    else
      var first := match body[0]
        case CallsSetup => CallSetup(h, s)
        case Own(run) => var e := run(s); Trace(e.scope, [], e.threw);
      if first.threw then first
      else
        var rest := RunBody(h, body[1..], first.scope);
        Trace(rest.scope, first.log + rest.log, rest.threw)
  }

  /** Invoke `creationSetup` or `updateSetup`: the hook is logged, then the
      `setup()` calls its body makes, all of them unless one of its steps throws. */
  function CallModeHook(h: Hooks, hook: Hook, body: seq<Action>, s: Scope): (t: Trace)
    ensures |t.log| >= 1 && t.log[0] == hook
    ensures forall i :: 1 <= i < |t.log| ==> t.log[i] == Setup
    ensures |t.log| - 1 <= SetupCalls(body)
    ensures !t.threw ==> |t.log| - 1 == SetupCalls(body)
    ensures t.scope == RunBody(h, body, s).scope && t.threw == RunBody(h, body, s).threw
    ensures t.log[1..] == RunBody(h, body, s).log
  {
    var b := RunBody(h, body, s);
    Trace(b.scope, [hook] + b.log, b.threw)
  }

  /** The hook `runSetup` dispatches to for a method string. */
  function Dispatch(h: Hooks, httpMethod: string, s: Scope): (t: Trace)
    ensures |t.log| >= 1
    ensures t.log[0] == CreationSetup <==> httpMethod == "post"
    ensures t.log[0] == UpdateSetup <==> httpMethod == "put"
    ensures t.log[0] == Setup <==> httpMethod != "post" && httpMethod != "put"
    ensures forall i :: 1 <= i < |t.log| ==> t.log[i] == Setup
    ensures httpMethod == "post" ==>
      t.scope == RunBody(h, h.creationSetup, s).scope && t.threw == RunBody(h, h.creationSetup, s).threw
    ensures httpMethod == "put" ==>
      t.scope == RunBody(h, h.updateSetup, s).scope && t.threw == RunBody(h, h.updateSetup, s).threw
    ensures httpMethod == "post" ==> t.log[1..] == RunBody(h, h.creationSetup, s).log
    ensures httpMethod == "put" ==> t.log[1..] == RunBody(h, h.updateSetup, s).log
    ensures httpMethod != "post" && httpMethod != "put" ==>
      t.scope == h.setup(s).scope && t.threw == h.setup(s).threw && t.log == [Setup]
  {
    if httpMethod == "post" then CallModeHook(h, CreationSetup, h.creationSetup, s)
    else if httpMethod == "put" then CallModeHook(h, UpdateSetup, h.updateSetup, s)
    else CallSetup(h, s)
  }

  /** The scope setup hands to the dispatched hook: the instance's configuration,
      no `novalidate` attribute yet, and its collections. */
  function StartScope(m: FormModel): Scope
  {
    Scope(m.httpMethod, m.customTemplate, None, m.contents)
  }

  /** `runSetup()`: a no-op once the form exists; otherwise build the form for the
      current method, store it, then dispatch on the method: `"post"` runs
      `creationSetup`, `"put"` runs `updateSetup`, anything else runs `setup`.
      The form is stored before the hook runs, so it stays set if the hook throws.
      The hook may change the method, the template, the form's `novalidate`
      attribute and the collections; the form keeps the method it was built for. */
  function RunSetup(m: FormModel, h: Hooks): (o: Outcome<()>)
    ensures m.form.Some? ==> o == Done(m, ())
    ensures o.model.form.Some?
    ensures m.form.None? ==> o.model.form.value.httpMethod == m.httpMethod
    ensures m.form.None? ==> o.model.buildCount == m.buildCount + 1
    ensures m.form.None? ==>
      && |o.model.hookLog| > |m.hookLog|
      && o.model.hookLog[..|m.hookLog|] == m.hookLog
      && (o.model.hookLog[|m.hookLog|] == CreationSetup <==> m.httpMethod == "post")
      && (o.model.hookLog[|m.hookLog|] == UpdateSetup <==> m.httpMethod == "put")
      && (o.model.hookLog[|m.hookLog|] == Setup <==> m.httpMethod != "post" && m.httpMethod != "put")
      && (forall i :: |m.hookLog| < i < |o.model.hookLog| ==> o.model.hookLog[i] == Setup)
    ensures m.form.None? && (m.httpMethod == "post" || m.httpMethod == "put") ==>
      var t := RunBody(h, if m.httpMethod == "post" then h.creationSetup else h.updateSetup, StartScope(m));
      && o.model.httpMethod == t.scope.httpMethod
      && o.model.customTemplate == t.scope.customTemplate
      && o.model.form == Some(Form(m.httpMethod, t.scope.novalidate))
      && o.model.contents == t.scope.contents
      && o.model.hookLog == m.hookLog + [if m.httpMethod == "post" then CreationSetup else UpdateSetup] + t.log
      && (o.Threw? <==> t.threw)
    ensures m.form.None? && m.httpMethod != "post" && m.httpMethod != "put" ==>
      var e := h.setup(StartScope(m));
      && o.model == FormModel(
           e.scope.httpMethod, e.scope.customTemplate, Some(Form(m.httpMethod, e.scope.novalidate)),
           e.scope.contents, m.buildCount + 1, m.hookLog + [Setup])
      && (o.Threw? <==> e.threw)
  {
    if m.form.Some? then Done(m, ())
    else
      var t := Dispatch(h, m.httpMethod, StartScope(m));
      var m' := FormModel(
        t.scope.httpMethod,
        t.scope.customTemplate,
        Some(Form(m.httpMethod, t.scope.novalidate)),
        t.scope.contents,
        m.buildCount + 1,
        m.hookLog + t.log);
      if t.threw then Threw(m') else Done(m', ())
  }

  /** Setup runs at most once: after any first run, whether its hook returned or
      threw, a second run changes nothing and invokes no hook. */
  lemma SetupNeverRepeats(m: FormModel, h: Hooks)
    ensures RunSetup(RunSetup(m, h).model, h) == Done(RunSetup(m, h).model, ())
    ensures RunSetup(RunSetup(m, h).model, h).model.buildCount == m.buildCount + (if m.form.None? then 1 else 0)
  {
  }

  /** Running setup keeps an instance consistent; from a consistent state before
      setup it makes exactly one form. */
  lemma RunSetupConsistent(m: FormModel, h: Hooks)
    requires Consistent(m)
    ensures Consistent(RunSetup(m, h).model)
    ensures RunSetup(m, h).model.buildCount == 1
  {
  }

  /** With the inherited hooks nothing throws and nothing but the form, the build
      count and the log changes: the form is built for the method with no
      `novalidate` attribute, and each method ends with exactly one `setup`
      invocation: `"post"` logs `creationSetup` then `setup`, `"put"` logs
      `updateSetup` then `setup`, others log `setup` alone. */
  lemma DefaultHooksChain(m: FormModel)
    requires m.form.None?
    ensures RunSetup(m, DefaultHooks).Done?
    ensures RunSetup(m, DefaultHooks).model == m.(
      form := Some(Form(m.httpMethod, None)),
      buildCount := m.buildCount + 1,
      hookLog := m.hookLog +
        (if m.httpMethod == "post" then [CreationSetup, Setup]
         else if m.httpMethod == "put" then [UpdateSetup, Setup]
         else [Setup]))
    ensures multiset(RunSetup(m, DefaultHooks).model.hookLog)[Setup] == multiset(m.hookLog)[Setup] + 1
  {
    var s := Scope(m.httpMethod, m.customTemplate, None, m.contents);
    var body := [CallsSetup];
    assert body[1..] == [];
    assert RunBody(DefaultHooks, body[1..], s) == Trace(s, [], false);
    assert RunBody(DefaultHooks, body, s) == Trace(s, [Setup], false);
    var log := if m.httpMethod == "post" then [CreationSetup, Setup]
               else if m.httpMethod == "put" then [UpdateSetup, Setup]
               else [Setup];
    assert Dispatch(DefaultHooks, m.httpMethod, s) == Trace(s, log, false);
  }

  /** Hook code that returns on every scope. */
  ghost predicate NeverThrows(f: Scope -> Effect) {
    forall s :: !f(s).threw
  }

  /** Every step of a mode hook's own code returns on every scope. */
  ghost predicate OwnStepsNeverThrow(body: seq<Action>) {
    forall i :: 0 <= i < |body| && body[i].Own? ==> NeverThrows(body[i].run)
  }

  /** A body that only calls `setup()` runs it: the trace is `setup`'s effect. */
  lemma RunBodyCallsSetup(h: Hooks, s: Scope)
    ensures RunBody(h, [CallsSetup], s) == Trace(h.setup(s).scope, [Setup], h.setup(s).threw)
  {
  }

  /** A body of one step of own code runs that code and logs nothing. */
  lemma RunBodyOwn(h: Hooks, f: Scope -> Effect, s: Scope)
    ensures RunBody(h, [Own(f)], s) == Trace(f(s).scope, [], f(s).threw)
  {
  }

  /** Running `a + b` runs `a`; if `a` threw nothing more happens, otherwise `b`
      runs on the scope `a` left and its invocations follow `a`'s. */
  lemma {:induction false} RunBodyAppend(h: Hooks, a: seq<Action>, b: seq<Action>, s: Scope)
    ensures RunBody(h, a + b, s) ==
      (var ta := RunBody(h, a, s);
       if ta.threw then ta
       else
         var tb := RunBody(h, b, ta.scope);
         Trace(tb.scope, ta.log + tb.log, tb.threw))
    decreases |a|
  {
    if |a| == 0 {
      assert a + b == b;
    } else {
      assert (a + b)[0] == a[0];
      assert (a + b)[1..] == a[1..] + b;
      var first := match a[0]
        case CallsSetup => CallSetup(h, s)
        case Own(run) => var e := run(s); Trace(e.scope, [], e.threw);
      if !first.threw {
        RunBodyAppend(h, a[1..], b, first.scope);
        var ta' := RunBody(h, a[1..], first.scope);
        if !ta'.threw {
          var tb := RunBody(h, b, ta'.scope);
          assert first.log + (ta'.log + tb.log) == (first.log + ta'.log) + tb.log;
        }
      }
    }
  }

  /** A mode hook's body reaches no hook but `setup`: two hook sets with the same
      `setup` run any body identically. */
  lemma {:induction false} RunBodyUsesOnlySetup(h: Hooks, h': Hooks, body: seq<Action>, s: Scope)
    requires h.setup == h'.setup
    ensures RunBody(h, body, s) == RunBody(h', body, s)
    decreases |body|
  {
    if |body| > 0 {
      var first := match body[0]
        case CallsSetup => CallSetup(h, s)
        case Own(run) => var e := run(s); Trace(e.scope, [], e.threw);
      if !first.threw {
        RunBodyUsesOnlySetup(h, h', body[1..], first.scope);
      }
    }
  }

  /** If `setup` and every own step of a body return, the body returns. */
  lemma {:induction false} RunBodyReturns(h: Hooks, body: seq<Action>, s: Scope)
    requires NeverThrows(h.setup) && OwnStepsNeverThrow(body)
    ensures !RunBody(h, body, s).threw
    decreases |body|
  {
    if |body| > 0 {
      var first := match body[0]
        case CallsSetup => CallSetup(h, s)
        case Own(run) => var e := run(s); Trace(e.scope, [], e.threw);
      assert !first.threw by {
        if body[0].Own? {
          assert NeverThrows(body[0].run);
        }
      }
      assert OwnStepsNeverThrow(body[1..]) by {
        forall i | 0 <= i < |body[1..]| && body[1..][i].Own?
          ensures NeverThrows(body[1..][i].run)
        {
          assert body[1..][i] == body[i + 1];
        }
      }
      RunBodyReturns(h, body[1..], first.scope);
    }
  }

  /** Only the selected hook's code runs: for `"post"` the `updateSetup` body is
      never consulted, for `"put"` the `creationSetup` body is never consulted,
      and for any other method neither mode body is. */
  lemma SetupRunsOnlySelectedHook(m: FormModel, h: Hooks, b: seq<Action>, b': seq<Action>)
    ensures m.httpMethod == "post" ==> RunSetup(m, h) == RunSetup(m, h.(updateSetup := b))
    ensures m.httpMethod == "put" ==> RunSetup(m, h) == RunSetup(m, h.(creationSetup := b))
    ensures m.httpMethod != "post" && m.httpMethod != "put" ==>
      RunSetup(m, h) == RunSetup(m, h.(creationSetup := b, updateSetup := b'))
  {
    var s := StartScope(m);
    RunBodyUsesOnlySetup(h, h.(updateSetup := b), h.creationSetup, s);
    RunBodyUsesOnlySetup(h, h.(creationSetup := b), h.updateSetup, s);
  }

  /** Setup throws only if hook code throws: when `setup` and the own steps of
      both mode hooks return, so does setup, whatever the method. */
  lemma SetupReturnsWhenHooksReturn(m: FormModel, h: Hooks)
    requires NeverThrows(h.setup)
    requires OwnStepsNeverThrow(h.creationSetup) && OwnStepsNeverThrow(h.updateSetup)
    ensures RunSetup(m, h).Done?
  {
    if m.form.None? {
      var s := StartScope(m);
      RunBodyReturns(h, h.creationSetup, s);
      RunBodyReturns(h, h.updateSetup, s);
      assert !h.setup(s).threw;
    }
  }

  // ---------------------------------------------------------------- configuration

  /** `forCreation()`: select `"post"`; nothing else changes and no form is built. */
  function ForCreation(m: FormModel): (r: FormModel)
    ensures r.httpMethod == "post"
    ensures r.customTemplate == m.customTemplate && r.form == m.form && r.contents == m.contents
    ensures r.buildCount == m.buildCount && r.hookLog == m.hookLog
  {
    m.(httpMethod := "post")
  }

  /** `forUpdate()`: select `"put"`; nothing else changes and no form is built. */
  function ForUpdate(m: FormModel): (r: FormModel)
    ensures r.httpMethod == "put"
    ensures r.customTemplate == m.customTemplate && r.form == m.form && r.contents == m.contents
    ensures r.buildCount == m.buildCount && r.hookLog == m.hookLog
  {
    m.(httpMethod := "put")
  }

  /** `template($t)`: store the custom template; nothing else changes. */
  function Template(m: FormModel, t: NullableString): (r: FormModel)
    ensures r.customTemplate == t
    ensures r.httpMethod == m.httpMethod && r.form == m.form && r.contents == m.contents
    ensures r.buildCount == m.buildCount && r.hookLog == m.hookLog
  {
    m.(customTemplate := t)
  }

  /** Selecting a mode before setup selects the hook: after `forCreation()` setup
      starts with `creationSetup` and builds a `"post"` form, after `forUpdate()`
      with `updateSetup` and a `"put"` form. After setup, selecting a mode has no
      retroactive effect: the form stays the one built earlier and no hook runs. */
  lemma ModeSelectsHook(m: FormModel, h: Hooks)
    ensures m.form.None? ==> RunSetup(ForCreation(m), h).model.hookLog[|m.hookLog|] == CreationSetup
    ensures m.form.None? ==> RunSetup(ForCreation(m), h).model.form.value.httpMethod == "post"
    ensures m.form.None? ==> RunSetup(ForUpdate(m), h).model.hookLog[|m.hookLog|] == UpdateSetup
    ensures m.form.None? ==> RunSetup(ForUpdate(m), h).model.form.value.httpMethod == "put"
    ensures m.form.Some? ==> RunSetup(ForUpdate(m), h) == Done(ForUpdate(m), ())
    ensures m.form.Some? ==> RunSetup(ForCreation(m), h) == Done(ForCreation(m), ())
  {
  }

  /** `novalidate($value)`: run setup, then set the attribute on the built form. */
  function Novalidate(m: FormModel, h: Hooks, value: bool): (o: Outcome<()>)
    ensures o.Threw? <==> RunSetup(m, h).Threw?
    ensures o.Threw? ==> o.model == RunSetup(m, h).model
    ensures o.Done? ==> o.model == RunSetup(m, h).model.(form := Some(RunSetup(m, h).model.form.value.(novalidate := Some(value))))
  {
    match RunSetup(m, h)
    case Threw(m') => Threw(m')
    case Done(m', _) =>
      var f := m'.form.value;
      Done(m'.(form := Some(f.(novalidate := Some(value)))), ())
  }

  /** `novalidate` is safe after setup: it builds nothing and invokes no hook. */
  lemma NovalidateAfterSetup(m: FormModel, h: Hooks, value: bool)
    requires m.form.Some?
    ensures Novalidate(m, h, value).Done?
    ensures Novalidate(m, h, value).model == m.(form := Some(m.form.value.(novalidate := Some(value))))
  {
  }

  // ---------------------------------------------------------------- rendering

  /** `$argument ?: $this->customTemplate ?: '@form'`, with PHP truthiness: the
      argument if truthy, else the stored template if truthy, else the default. */
  function ChooseTemplate(argument: NullableString, stored: NullableString): (t: string)
    ensures Truthy(argument) ==> t == argument.value
    ensures !Truthy(argument) && Truthy(stored) ==> t == stored.value
    ensures !Truthy(argument) && !Truthy(stored) ==> t == DefaultTemplate
    ensures Truthy(Some(t))
  {
    var chosen := Elvis(Elvis(argument, stored), Some(DefaultTemplate));
    chosen.value
  }

  /** What `render` hands to the theme: the template and the rendering context. */
  datatype ThemeCall = ThemeCall(template: string, form: Form, contents: Contents)

  /** `render($customTemplate)`: run setup, then choose the template from the
      argument and the stored template as setup left it, and call the theme with the
      built form, fields and buttons. */
  function Render(m: FormModel, h: Hooks, argument: NullableString): (o: Outcome<ThemeCall>)
    ensures o.model == RunSetup(m, h).model
    ensures o.Done? <==> RunSetup(m, h).Done?
    ensures o.Done? ==> o.value.template == ChooseTemplate(argument, o.model.customTemplate)
    ensures o.Done? ==> Some(o.value.form) == o.model.form && o.value.contents == o.model.contents
  {
    match RunSetup(m, h)
    case Threw(m') => Threw(m')
    case Done(m', _) => Done(m', ThemeCall(ChooseTemplate(argument, m'.customTemplate), m'.form.value, m'.contents))
  }

  /** `toHtml()`: `render()` without an argument. */
  function ToHtml(m: FormModel, h: Hooks): (o: Outcome<ThemeCall>)
    ensures o.model == RunSetup(m, h).model
    ensures o.Done? <==> RunSetup(m, h).Done?
    ensures o.Done? && Truthy(o.model.customTemplate) ==> o.value.template == o.model.customTemplate.value
    ensures o.Done? && !Truthy(o.model.customTemplate) ==> o.value.template == DefaultTemplate
  {
    Render(m, h, None)
  }

  /** Template precedence on a built form: after `template(t)` with a truthy `t`,
      `render()` renders `t`; a truthy argument wins over the stored template; a
      falsy argument (`""`, `"0"`) is treated like no argument at all. */
  lemma RenderPrecedence(m: FormModel, h: Hooks, t: string)
    requires m.form.Some?
    ensures Truthy(Some(t)) ==> Render(Template(m, Some(t)), h, None).value.template == t
    ensures Truthy(Some(t)) ==> Render(m, h, Some(t)).value.template == t
    ensures !Truthy(Some(t)) ==> Render(m, h, Some(t)) == Render(m, h, None)
    ensures !Truthy(m.customTemplate) ==> Render(m, h, None).value.template == DefaultTemplate
  {
  }

  /** The same precedence before the first render, with the inherited hooks (which
      leave the stored template alone): `template(t)` then `render()` renders a
      truthy `t`, a truthy argument wins, a falsy one acts like none, and with no
      truthy stored template `'@form'` is rendered. */
  lemma RenderPrecedenceBeforeSetup(m: FormModel, t: string)
    ensures Truthy(Some(t)) ==> Render(Template(m, Some(t)), DefaultHooks, None).value.template == t
    ensures Truthy(Some(t)) ==> Render(m, DefaultHooks, Some(t)).value.template == t
    ensures !Truthy(Some(t)) ==> Render(m, DefaultHooks, Some(t)) == Render(m, DefaultHooks, None)
    ensures !Truthy(m.customTemplate) ==> Render(m, DefaultHooks, None).value.template == DefaultTemplate
  {
    if m.form.None? {
      DefaultHooksChain(m);
      DefaultHooksChain(Template(m, Some(t)));
    }
  }

  /** `render` reads the stored template after setup: a `setup()` that calls
      `template('@custom')` wins over a template stored before the first render. */
  lemma SetupHookOverridesTemplate(contents: Contents)
    ensures var h := Hooks((s: Scope) => Effect(s.(customTemplate := Some("@custom")), false), [CallsSetup], [CallsSetup]);
            Render(Template(New(contents), Some("@mine")), h, None).value.template == "@custom"
  {
  }

  /** Rendering is repeatable: once a render has returned, rendering again with the
      same argument returns the same theme call and leaves the state as it is. */
  lemma RenderStable(m: FormModel, h: Hooks, argument: NullableString)
    requires Render(m, h, argument).Done?
    ensures Render(Render(m, h, argument).model, h, argument) == Render(m, h, argument)
  {
  }

  // ---------------------------------------------------------------- assets

  /** `scripts()` / `styles()`: run setup, then collect the asset URLs of one kind
      over the true fields, without duplicates, in first-occurrence order. */
  function Assets(m: FormModel, h: Hooks, kind: AssetKind): (o: Outcome<seq<string>>)
    ensures o.model == RunSetup(m, h).model
    ensures o.Done? <==> RunSetup(m, h).Done?
    ensures o.Done? ==> Unique.NoDuplicates(o.value)
    ensures o.Done? ==> forall url :: url in o.value <==> RequiredByAField(o.model.contents.fields, kind, url)
    ensures o.Done? ==> forall url :: url in o.value ==> url in MergedAssets(OnlyFields(o.model.contents.fields), kind)
    ensures o.Done? ==> Unique.FirstOccurrenceOrder(MergedAssets(OnlyFields(o.model.contents.fields), kind), o.value)
  {
    match RunSetup(m, h)
    case Threw(m') => Threw(m')
    case Done(m', _) =>
      CollectAssetsSpec(m'.contents.fields, kind);
      Done(m', CollectAssets(m'.contents.fields, kind))
  }

  /** `scripts()`: after setup, the script URLs of the true fields, each once, in
      order of first occurrence. */
  function ScriptURLs(m: FormModel, h: Hooks): (o: Outcome<seq<string>>)
    ensures o.model == RunSetup(m, h).model
    ensures o.Done? <==> RunSetup(m, h).Done?
    ensures o.Done? ==> Unique.NoDuplicates(o.value)
    ensures o.Done? ==> forall url :: url in o.value <==> RequiredByAField(o.model.contents.fields, Fields.Scripts, url)
    ensures o.Done? ==> forall url :: url in o.value ==> url in MergedAssets(OnlyFields(o.model.contents.fields), Fields.Scripts)
    ensures o.Done? ==> Unique.FirstOccurrenceOrder(MergedAssets(OnlyFields(o.model.contents.fields), Fields.Scripts), o.value)
  {
    Assets(m, h, Fields.Scripts)
  }

  /** `styles()`: after setup, the style URLs of the true fields, each once, in
      order of first occurrence. */
  function StyleURLs(m: FormModel, h: Hooks): (o: Outcome<seq<string>>)
    ensures o.model == RunSetup(m, h).model
    ensures o.Done? <==> RunSetup(m, h).Done?
    ensures o.Done? ==> Unique.NoDuplicates(o.value)
    ensures o.Done? ==> forall url :: url in o.value <==> RequiredByAField(o.model.contents.fields, Fields.Styles, url)
    ensures o.Done? ==> forall url :: url in o.value ==> url in MergedAssets(OnlyFields(o.model.contents.fields), Fields.Styles)
    ensures o.Done? ==> Unique.FirstOccurrenceOrder(MergedAssets(OnlyFields(o.model.contents.fields), Fields.Styles), o.value)
  {
    Assets(m, h, Fields.Styles)
  }

  /** `renderScripts()` / `renderStyles()`: one tag per collected URL, in order. */
  function RenderAssetTags(m: FormModel, h: Hooks, kind: AssetKind, tag: string -> string): (o: Outcome<string>)
    ensures o.model == RunSetup(m, h).model
    ensures o.Done? <==> RunSetup(m, h).Done?
    ensures o.Done? ==> o.value == Tags(CollectAssets(o.model.contents.fields, kind), tag)
  {
    match Assets(m, h, kind)
    case Threw(m') => Threw(m')
    case Done(m', urls) => Done(m', RenderAssets(urls, tag))
  }

  /** Collecting assets is repeatable: a second call returns the same list and
      leaves the state as it is, even when the first call's setup threw. */
  lemma AssetsStable(m: FormModel, h: Hooks, kind: AssetKind)
    ensures Assets(Assets(m, h, kind).model, h, kind).model == Assets(m, h, kind).model
    ensures Assets(m, h, kind).Done? ==> Assets(Assets(m, h, kind).model, h, kind) == Assets(m, h, kind)
  {
  }

  /** `render()`, then `scripts()`, then `render()` again: the second render makes
      the same theme call as the first, and no setup runs in between. */
  lemma RenderScriptsRender(m: FormModel, h: Hooks, argument: NullableString)
    requires Render(m, h, argument).Done?
    ensures Assets(Render(m, h, argument).model, h, Fields.Scripts).model == Render(m, h, argument).model
    ensures Render(Assets(Render(m, h, argument).model, h, Fields.Scripts).model, h, argument) == Render(m, h, argument)
  {
  }

  /** Two fields requiring `a.js, b.js` and `b.js, c.js`, with a group between
      them, collect `a.js, b.js, c.js`. */
  lemma ScriptsExample()
    ensures CollectAssets([("f1", Field(true, [], ["a.js", "b.js"], [])),
                           ("g", Other),
                           ("f2", Field(false, [], ["b.js", "c.js"], []))], Fields.Scripts)
            == ["a.js", "b.js", "c.js"]
  {
    var c := [("f1", Field(true, [], ["a.js", "b.js"], [])),
              ("g", Other),
              ("f2", Field(false, [], ["b.js", "c.js"], []))];
    var merged := ["a.js", "b.js", "b.js", "c.js"];
    assert OnlyFields(c) == [c[0], c[2]];
    assert MergedAssets(OnlyFields(c), Fields.Scripts) == merged;
    assert merged[..3] == ["a.js", "b.js", "b.js"];
    assert merged[..3][..2] == ["a.js", "b.js"];
    assert merged[..3][..2][..1] == ["a.js"];
    assert Unique.Dedup(["a.js"]) == ["a.js"];
    assert Unique.Dedup(["a.js", "b.js"]) == ["a.js", "b.js"];
    assert Unique.Dedup(["a.js", "b.js", "b.js"]) == ["a.js", "b.js"];
  }

  // ---------------------------------------------------------------- validation rules

  /** `getValidationRules()`: run setup, then map each included true field's name
      to its rules, in collection order. */
  function GetValidationRules(m: FormModel, h: Hooks): (o: Outcome<OrderedArray<seq<string>>>)
    ensures o.model == RunSetup(m, h).model
    ensures o.Done? <==> RunSetup(m, h).Done?
    ensures o.Done? ==> DistinctKeys(o.value)
    ensures o.Done? ==> forall k :: k in Keys(o.value) <==> HasIncludedEntry(o.model.contents.fields, k)
    ensures o.Done? && DistinctKeys(o.model.contents.fields) ==> o.value == IncludedRules(o.model.contents.fields)
  {
    match RunSetup(m, h)
    case Threw(m') => Threw(m')
    case Done(m', _) =>
      var fields := m'.contents.fields;
      assert DistinctKeys(fields) ==> ValidationRules(fields) == IncludedRules(fields) by {
        if DistinctKeys(fields) {
          ValidationRulesInOrder(fields);
        }
      }
      Done(m', ValidationRules(m'.contents.fields))
  }

  /** Collecting rules is repeatable: once a call has returned, a second call
      returns the same rules and leaves the state as it is. */
  lemma RulesStable(m: FormModel, h: Hooks)
    requires GetValidationRules(m, h).Done?
    ensures GetValidationRules(GetValidationRules(m, h).model, h) == GetValidationRules(m, h)
  {
  }

  /** An included field `f1` with rule `required`, an excluded field `f2` and a
      group `g1` give the rule array `['f1' => ['required']]`. */
  lemma RulesExample()
    ensures ValidationRules([("f1", Field(true, ["required"], [], [])),
                             ("f2", Field(false, ["email"], [], [])),
                             ("g1", Other)]) == [("f1", ["required"])]
  {
    var c := [("f1", Field(true, ["required"], [], [])),
              ("f2", Field(false, ["email"], [], [])),
              ("g1", Other)];
    ValidationRulesInOrder(c);
  }

  // ---------------------------------------------------------------- forwarding

  /** Where `__call` sends a call it does not handle itself. */
  datatype Target = ToForm | ToButtons | ToFields

  /** `__call($name)`: to the form if it has a method of that name, else to the
      buttons if they have one, else to the field collection. The call does not run
      setup, so before setup the form is absent and takes no call. `formMethods` and
      `buttonMethods` are the method names of the form and button collection classes. */
  function Forward(m: FormModel, formMethods: set<string>, buttonMethods: set<string>, name: string): (t: Target)
    ensures t == ToForm <==> m.form.Some? && name in formMethods
    ensures t == ToButtons <==> !(m.form.Some? && name in formMethods) && name in buttonMethods
    ensures t == ToFields <==> !(m.form.Some? && name in formMethods) && name !in buttonMethods
  {
    if m.form.Some? && name in formMethods then ToForm
    else if name in buttonMethods then ToButtons
    else ToFields
  }

  /** Running setup can only move a forwarded call towards the form: a name the form
      class has goes to the form after setup, and no other name changes target. */
  lemma ForwardAfterSetup(m: FormModel, h: Hooks, formMethods: set<string>, buttonMethods: set<string>, name: string)
    ensures name in formMethods ==> Forward(RunSetup(m, h).model, formMethods, buttonMethods, name) == ToForm
    ensures name !in formMethods ==> Forward(RunSetup(m, h).model, formMethods, buttonMethods, name) == Forward(m, formMethods, buttonMethods, name)
  {
  }

  /** `__get($name)`: the field collection's entry of that name, if any. */
  function FieldNamed(m: FormModel, name: string): (e: Option<Entry>)
    ensures e.Some? <==> name in Keys(m.contents.fields)
    ensures e.Some? ==> (name, e.value) in m.contents.fields
  {
    Lookup(m.contents.fields, name)
  }

  // ---------------------------------------------------------------- sessions

  /** One public call on a form model. */
  datatype Call =
    | ForCreationCall
    | ForUpdateCall
    | TemplateCall(template: NullableString)
    | NovalidateCall(value: bool)
    | RenderCall(argument: NullableString)
    | ScriptsCall
    | StylesCall
    | RulesCall
    | ForwardedCall(formMethods: set<string>, buttonMethods: set<string>, name: string)

  /** The state after one call, whether it returned or threw. */
  function Step(m: FormModel, h: Hooks, call: Call): FormModel
  {
    match call
    case ForCreationCall => ForCreation(m)
    case ForUpdateCall => ForUpdate(m)
    case TemplateCall(t) => Template(m, t)
    case NovalidateCall(v) => Novalidate(m, h, v).model
    case RenderCall(a) => Render(m, h, a).model
    case ScriptsCall => Assets(m, h, Fields.Scripts).model
    case StylesCall => Assets(m, h, Fields.Styles).model
    case RulesCall => GetValidationRules(m, h).model
    case ForwardedCall(_, _, _) => m
  }

  /** The state after a sequence of calls. */
  function Session(m: FormModel, h: Hooks, calls: seq<Call>): FormModel
    decreases |calls|
  {
    if |calls| == 0 then m else Session(Step(m, h, calls[0]), h, calls[1..])
  }

  /** Every call keeps an instance consistent and never makes a second form. */
  lemma StepConsistent(m: FormModel, h: Hooks, call: Call)
    requires Consistent(m)
    ensures Consistent(Step(m, h, call))
    ensures m.form.Some? ==> Step(m, h, call).form.Some? && Step(m, h, call).hookLog == m.hookLog
  {
  }

  /** Over any sequence of calls on a new instance the builder makes at most one
      form, and once made the form's method never changes and no hook runs again. */
  lemma {:induction false} SessionBuildsAtMostOnce(m: FormModel, h: Hooks, calls: seq<Call>)
    requires Consistent(m)
    ensures Consistent(Session(m, h, calls))
    ensures Session(m, h, calls).buildCount <= 1
    ensures m.form.Some? ==> Session(m, h, calls).form.Some?
    ensures m.form.Some? ==> Session(m, h, calls).form.value.httpMethod == m.form.value.httpMethod
    ensures m.form.Some? ==> Session(m, h, calls).hookLog == m.hookLog
    decreases |calls|
  {
    if |calls| > 0 {
      StepConsistent(m, h, calls[0]);
      SessionBuildsAtMostOnce(Step(m, h, calls[0]), h, calls[1..]);
    }
  }

  /** With the inherited hooks, a session on a new instance invokes `setup` exactly
      once if a form was built and never otherwise. */
  lemma {:induction false} DefaultSessionRunsSetupOnce(m: FormModel, calls: seq<Call>)
    requires Consistent(m)
    requires multiset(m.hookLog)[Setup] == m.buildCount
    ensures multiset(Session(m, DefaultHooks, calls).hookLog)[Setup] == Session(m, DefaultHooks, calls).buildCount
    decreases |calls|
  {
    if |calls| > 0 {
      var m' := Step(m, DefaultHooks, calls[0]);
      StepConsistent(m, DefaultHooks, calls[0]);
      if m.form.None? {
        DefaultHooksChain(m);
      }
      DefaultSessionRunsSetupOnce(m', calls[1..]);
    }
  }
}

=== FILE: php.dfy ===
/** The few PHP language rules the form model depends on: string truthiness,
    the short ternary `?:`, and assignment into an insertion-ordered array. */
module Php {
  import opened Wrappers

  /** A nullable PHP string, as held in `$customTemplate` or passed to `render`. */
  type NullableString = Option<string>

  /** PHP truthiness of a nullable string: `null`, `""` and `"0"` are falsy,
      every other string is truthy. */
  predicate Truthy(s: NullableString) {
    s.Some? && s.value != "" && s.value != "0"
  }

  /** PHP's short ternary `a ?: b`: `a` when it is truthy, otherwise `b`. */
  function Elvis(a: NullableString, b: NullableString): (r: NullableString)
    ensures Truthy(a) ==> r == a
    ensures !Truthy(a) ==> r == b
  {
    if Truthy(a) then a else b
  }

  /** A PHP array with string keys, as an insertion-ordered list of pairs. */
  type OrderedArray<V> = seq<(string, V)>

  /** The keys of an ordered array, in order. */
  function Keys<V>(a: OrderedArray<V>): (ks: seq<string>)
    ensures |ks| == |a|
    ensures forall i :: 0 <= i < |a| ==> ks[i] == a[i].0
  {
    seq(|a|, i requires 0 <= i < |a| => a[i].0)
  }

  /** Keys of a PHP array are pairwise distinct. */
  predicate DistinctKeys<V>(a: OrderedArray<V>) {
    forall i, j :: 0 <= i < j < |a| ==> a[i].0 != a[j].0
  }

  /** The position of the first entry with key `k`. */
  function KeyIndex<V>(a: OrderedArray<V>, k: string): (i: nat)
    requires k in Keys(a)
    ensures i < |a| && a[i].0 == k
    ensures forall j :: 0 <= j < i ==> a[j].0 != k
  {
    if a[0].0 == k then 0
    else
      assert Keys(a) == [a[0].0] + Keys(a[1..]);
      1 + KeyIndex(a[1..], k)
  }

  /** `$a[$k] = $v`: an existing key keeps its position and takes the new value;
      a new key is appended at the end. */
  function Assign<V>(a: OrderedArray<V>, k: string, v: V): (r: OrderedArray<V>)
    ensures k !in Keys(a) ==> r == a + [(k, v)]
    ensures Keys(r) == if k in Keys(a) then Keys(a) else Keys(a) + [k]
    ensures forall i :: 0 <= i < |a| && a[i].0 != k ==> r[i] == a[i]
    ensures DistinctKeys(a) ==> forall i :: 0 <= i < |a| && a[i].0 == k ==> r[i] == (k, v)
  {
    if k in Keys(a) then
      var r := a[KeyIndex(a, k) := (k, v)];
      assert Keys(r) == Keys(a);
      r
    else
      assert Keys(a + [(k, v)]) == Keys(a) + [k];
      a + [(k, v)]
  }

  /** `$a[$k]`: the value stored under key `k`, or `null` when the key is absent. */
  function Lookup<V>(a: OrderedArray<V>, k: string): (r: Option<V>)
    ensures r.Some? <==> k in Keys(a)
    ensures r.Some? ==> exists i :: 0 <= i < |a| && a[i] == (k, r.value)
  {
    if |a| == 0 then None
    else if a[0].0 == k then Some(a[0].1)
    else Lookup(a[1..], k)
  }

  /** Assignment keeps the keys of a PHP array distinct and adds exactly `k`. */
  lemma AssignKeepsKeysDistinct<V>(a: OrderedArray<V>, k: string, v: V)
    requires DistinctKeys(a)
    ensures DistinctKeys(Assign(a, k, v))
    ensures forall x :: x in Keys(Assign(a, k, v)) <==> x in Keys(a) || x == k
  {
  }
}

=== FILE: unique.dfy ===
/** PHP's `array_values(array_unique($list))` on a list of strings: keep the first
    occurrence of every value, drop the later ones, renumber from zero. */
module Unique {

  /** No value occurs twice. */
  predicate NoDuplicates(s: seq<string>) {
    forall i, j :: 0 <= i < j < |s| ==> s[i] != s[j]
  }

  /** The position of the first occurrence of `x` in `s`. */
  function FirstIndex(s: seq<string>, x: string): (i: nat)
    requires x in s
    ensures i < |s| && s[i] == x
    ensures forall j :: 0 <= j < i ==> s[j] != x
  {
    if s[0] == x then 0 else 1 + FirstIndex(s[1..], x)
  }

  /** The values of `r` appear in the order of their first occurrence in `s`. */
  predicate FirstOccurrenceOrder(s: seq<string>, r: seq<string>)
    requires forall x :: x in r ==> x in s
  {
    forall i, j :: 0 <= i < j < |r| ==> FirstIndex(s, r[i]) < FirstIndex(s, r[j])
  }

  /** `array_unique` followed by `array_values`, read left to right: an element is
      kept exactly when it does not already occur earlier in the list. */
  function Dedup(s: seq<string>): seq<string>
  {
    if |s| == 0 then []
    else
      var init := s[..|s| - 1];
      if s[|s| - 1] in init then Dedup(init) else Dedup(init) + [s[|s| - 1]]
  }

  /** Deduplication keeps exactly the values of the input. */
  lemma {:induction false} DedupSameElements(s: seq<string>)
    ensures forall x :: x in Dedup(s) <==> x in s
  {
    if |s| > 0 {
      var init := s[..|s| - 1];
      DedupSameElements(init);
      assert s == init + [s[|s| - 1]];
    }
  }

  /** The result of deduplication holds no value twice. */
  lemma {:induction false} DedupNoDuplicates(s: seq<string>)
    ensures NoDuplicates(Dedup(s))
  {
    if |s| > 0 {
      var init := s[..|s| - 1];
      DedupNoDuplicates(init);
      DedupSameElements(init);
    }
  }

  /** Deduplication lists the values in the order in which they first occur. */
  lemma {:induction false} DedupFirstOccurrenceOrder(s: seq<string>)
    ensures forall x :: x in Dedup(s) ==> x in s
    ensures FirstOccurrenceOrder(s, Dedup(s))
  {
    DedupSameElements(s);
    if |s| > 0 {
      var init := s[..|s| - 1];
      var last := s[|s| - 1];
      DedupFirstOccurrenceOrder(init);
      DedupSameElements(init);
      var d := Dedup(s);
      forall x | x in init
        ensures FirstIndex(s, x) == FirstIndex(init, x)
      {
        FirstIndexOfPrefix(init, s, x);
      }
      forall i, j | 0 <= i < j < |d|
        ensures FirstIndex(s, d[i]) < FirstIndex(s, d[j])
      {
        if last !in init && j == |d| - 1 {
          assert d[i] in init;
          assert FirstIndex(s, last) == |s| - 1;
        }
      }
    }
  }

  /** The first occurrence of a value in a prefix is its first occurrence in the whole. */
  lemma {:induction false} FirstIndexOfPrefix(p: seq<string>, s: seq<string>, x: string)
    requires p <= s && x in p
    ensures x in s && FirstIndex(s, x) == FirstIndex(p, x)
  {
  }

  /** Lists holding the same values are either both empty or both non-empty. */
  lemma SameValuesSameEmptiness(a: seq<string>, b: seq<string>)
    requires forall x :: x in a <==> x in b
    ensures |a| == 0 <==> |b| == 0
  {
    if |a| > 0 {
      assert a[0] in b;
    }
    if |b| > 0 {
      assert b[0] in a;
    }
  }

  /** Two non-empty lists with the same values, both in order of first occurrence
      in `s`, start with the same value. */
  lemma SameFirst(s: seq<string>, a: seq<string>, b: seq<string>)
    requires |a| > 0 && |b| > 0
    requires a[0] in b && b[0] in a
    requires forall x :: x in a ==> x in s
    requires forall x :: x in b ==> x in s
    requires FirstOccurrenceOrder(s, a) && FirstOccurrenceOrder(s, b)
    ensures a[0] == b[0]
  {
  }

  /** Two duplicate-free lists holding the same values in the same order of
      first occurrence in `s` are equal: the three properties determine the result. */
  lemma {:induction false} FirstOccurrenceOrderUnique(s: seq<string>, a: seq<string>, b: seq<string>)
    requires NoDuplicates(a) && NoDuplicates(b)
    requires forall x :: x in a <==> x in b
    requires forall x :: x in a ==> x in s
    requires FirstOccurrenceOrder(s, a) && FirstOccurrenceOrder(s, b)
    ensures a == b
    decreases |a|
  {
    SameValuesSameEmptiness(a, b);
    if |a| > 0 {
      SameFirst(s, a, b);
      forall x
        ensures x in a[1..] <==> x in b[1..]
      {
        if x in a[1..] {
          var i :| 1 <= i < |a| && a[i] == x;
          assert x != a[0];
          assert x in b;
          var j :| 0 <= j < |b| && b[j] == x;
          assert j != 0;
        }
        if x in b[1..] {
          var j :| 1 <= j < |b| && b[j] == x;
          assert x != b[0];
          assert x in a;
          var i :| 0 <= i < |a| && a[i] == x;
          assert i != 0;
        }
      }
      FirstOccurrenceOrderUnique(s, a[1..], b[1..]);
      assert a == [a[0]] + a[1..];
      assert b == [b[0]] + b[1..];
    }
  }

  /** Deduplication is the one list that holds the values of `s` once each, in the
      order of their first occurrence. */
  lemma DedupCharacterized(s: seq<string>, r: seq<string>)
    requires NoDuplicates(r)
    requires forall x :: x in r <==> x in s
    requires FirstOccurrenceOrder(s, r)
    ensures r == Dedup(s)
  {
    DedupSameElements(s);
    DedupNoDuplicates(s);
    DedupFirstOccurrenceOrder(s);
    FirstOccurrenceOrderUnique(s, r, Dedup(s));
  }

  /** A list without duplicates is left as it is. */
  lemma DedupOfDistinct(s: seq<string>)
    requires NoDuplicates(s)
    ensures Dedup(s) == s
  {
  }

  /** Deduplicating twice is the same as deduplicating once. */
  lemma DedupIdempotent(s: seq<string>)
    ensures Dedup(Dedup(s)) == Dedup(s)
  {
    DedupNoDuplicates(s);
    DedupOfDistinct(Dedup(s));
  }

  /** The loop PHP runs for `array_unique`: walk the list once, remembering the
      values already kept, and keep a value only the first time it is seen. */
  method ArrayUnique(s: seq<string>) returns (r: seq<string>)
    ensures r == Dedup(s)
    ensures NoDuplicates(r)
    ensures forall x :: x in r <==> x in s
  {
    r := [];
    var seen: set<string> := {};
    var i := 0;
    while i < |s|
      invariant 0 <= i <= |s|
      invariant r == Dedup(s[..i])
      invariant forall x :: x in seen <==> x in s[..i]
    {
      assert s[..i + 1][..i] == s[..i];
      if s[i] !in seen {
        r := r + [s[i]];
      }
      seen := seen + {s[i]};
      i := i + 1;
    }
    assert s[..i] == s;
    DedupNoDuplicates(s);
    DedupSameElements(s);
  }
}

=== FILE: wrappers.dfy ===
/** The optional-value datatype the rest of the model uses for PHP's nullable values. */
module Wrappers {

  /** Some value, or PHP's `null`. */
  datatype Option<+T> = None | Some(value: T)
}
